=== FILE: README.md ===
# Bank/practice reconciliation, modelled in Dafny

This project models the reconciler in `reconcile.py`. It takes a bank ledger and a practice ledger, each a table of rows with named columns, and does the following:

- strips whitespace from each side's reference column;
- coerces each side's amount column to a number, with 0 when the value cannot be read;
- renames the two columns to a shared `Reference` key and to `Amount_bank` / `Amount_practice`;
- full-outer-joins the two sides on `Reference`, keeping the merge indicator;
- annotates every joined row with `difference = Amount_bank − Amount_practice`, where an absent side counts as 0;
- annotates every joined row with one of four statuses: `matched`, `amount_mismatch`, `missing_in_practice` or `missing_in_bank`.

The modules follow the steps of the program:

- `Results` (results.dfy): `Option` and `Result`.
- `Tables` (tables.dfy): cells, rows and tables. Amounts are whole cents. `Missing` is the NaN marker. The `Conversions` record holds the library's number parser and number renderer, which the model leaves abstract.
- `Text` (text.dfy): Python's `str.strip()` with its whitespace set, written as two index scans (`SkipFrom`, `BackFrom`). Lemmas show that the result is the unique whitespace-free middle slice.
- `Normalize` (normalize.dfy): the reference key (`astype(str)` then strip), the lenient amount, and a row turned into a `Record` of key, amount and remaining columns.
- `Join` (join.dfy): the full outer join. Each joined row is tagged with its provenance (`Both`, `LeftOnly`, `RightOnly`). The module proves that the join is complete and invents nothing, gives per-key multiset counts, and proves the row-count law with the cross product for duplicate keys.
- `Reconciler` (reconcile.dfy): difference, status, the report, and `Reconcile`. `Reconcile` checks the columns and returns either an `Error` or the report.
- `Scenarios` (scenarios.dfy): worked one-row examples. They cover a padded reference with a mismatch, an unparseable amount counting as zero, and references that do not match.

Nothing here is executed; the properties below are proved by the verifier.

## Model

| member | source | states |
|---|---|---|
| Text.SkipFrom | reconcile.py:32-33 | the position where leading whitespace ends: everything skipped is whitespace, and the character found there is not |
| Text.BackFrom | reconcile.py:32-33 | the position where trailing whitespace begins: everything cut is whitespace, and the character before it is not |
| Text.Trim | reconcile.py:32-33 | the stripped reference has no whitespace at either end and is no longer than the input |
| Text.TrimSlice | reconcile.py:32-33 | the stripped reference is a contiguous slice of the input with only whitespace before and after it |
| Text.TrimPadded | reconcile.py:32-33 | any whitespace around a string without end whitespace is removed exactly, so the slice of `TrimSlice` is unique |
| Text.TrimIdempotent | reconcile.py:32-33 | strings without end whitespace are exactly the fixed points of stripping, so stripping twice equals stripping once |
| Text.TrimIgnoresPadding | reconcile.py:32-33 | extra whitespace around any string does not change what stripping returns |
| Normalize.ReferenceKey | reconcile.py:32-33 | the join key of a reference cell has no end whitespace, and a text cell already without end whitespace is its own key |
| Normalize.ReferenceKeyIgnoresPadding | reconcile.py:32-33 | `" A100 "`-style padding gives the same key as the bare text, so padded and unpadded references join |
| Normalize.ReferenceKeyIdempotent | reconcile.py:32-33 | re-normalising a key gives the same key |
| Normalize.NormalizeAmount | reconcile.py:13-15 | lenient parsing: a number is kept; a missing cell and a blank text become 0; a nonzero result is the number itself or the parser's reading of the text |
| Normalize.NormalizeAmountIdempotent | reconcile.py:13-15 | normalising an already normalised amount leaves it unchanged |
| Normalize.NormalizeRow | reconcile.py:32-39 | the record's key is the stripped text of the row's reference cell and its amount is the lenient reading of the row's amount cell; the key has no end whitespace; the reference and amount columns leave the row; every other column is kept with its value and no column is added |
| Normalize.NormalizeTable | reconcile.py:32-36 | one record per input row, in order, each the normalisation of its row |
| Join.JoinBank | reconcile.py:41-47 | the bank-side rows hold every same-key pair and every bank record without a partner; every row they hold is one of those |
| Join.UnmatchedPractice | reconcile.py:41-47 | a practice-only row exists exactly for each practice record whose key the bank side lacks |
| Join.OuterJoin | reconcile.py:41-47 | every joined row is justified by the inputs; every same-key pair and every partnerless record of either side is present |
| Join.OuterJoinKeys | reconcile.py:41-47 | the joined keys are exactly the union of the two sides' keys: none lost, none invented |
| Join.OuterJoinKeyLaw | reconcile.py:41-47 | per key `k`: count(k) on the bank side × count(k) on the practice side `both` rows; bank-only rows only when the practice side lacks `k`; practice-only rows only when the bank side lacks `k` |
| Join.OuterJoinRowsPerKey | reconcile.py:41-47 | the rows with key `k` number the product of the two counts when both sides have `k`, and otherwise the count of the one side that has it |
| Join.OuterJoinSize | reconcile.py:41-47 | the row-count law: the sum of the count products over shared keys, plus the unmatched bank records, plus the unmatched practice records |
| Join.CommonKeys | reconcile.py:41-47 | the shared keys, each listed once: a key is listed exactly when both sides have it |
| Reconciler.Difference | reconcile.py:60 | bank minus practice with an absent amount as 0: a bank-only row gives the bank amount, a practice-only row gives the negated practice amount |
| Reconciler.ClassifyPartition | reconcile.py:49-58 | exactly one status per row, decided by provenance and an inclusive test `abs(difference) <= tolerance` |
| Reconciler.Finish | reconcile.py:49-63 | an output row carries the key, the contributing sides' amounts and columns, the difference law and the four status iffs; the provenance marker is gone |
| Reconciler.FinishAll | reconcile.py:60-63 | one output row per joined row, in order, carrying exactly the joined keys, each row well classified |
| Reconciler.FinishTraced | reconcile.py:41-62 | a justified joined row's output row shows only input records of its key and is missing on a side exactly when that side lacks the key |
| Reconciler.ReportTraced | reconcile.py:41-62 | no report row invents an amount or a status |
| Reconciler.ReportCovers | reconcile.py:41-62 | every input record, and every same-key pair of records, is shown by some report row |
| Reconciler.Report | reconcile.py:41-64 | the report follows the row-count law, has exactly the two sides' keys, and every row is well classified, traced and covered |
| Reconciler.FindClash | reconcile.py:38-47 | finds a remaining column whose name the join reserves, or confirms there is none |
| Reconciler.UsableRecordsAvoidReservedNames | reconcile.py:38-47 | for tables whose rows hold exactly the header's columns, the column check also keeps every reserved name out of every record that reaches the join |
| Reconciler.ColumnProblem | reconcile.py:32-36 | selecting a named column succeeds exactly when the header names it once; otherwise the error says whether it is missing or repeated |
| Reconciler.SelectionProblem | reconcile.py:32-36 | the four named columns are selected in the order bank reference, practice reference, bank amount, practice amount, and the first one missing or repeated is the reported error; there is none exactly when all four appear once |
| Reconciler.Reconcile | reconcile.py:18-64 | fails, before any output, on the first named column that is missing or repeated (in the order of the source's selections), on a side whose key and amount columns coincide, or on a remaining column with a reserved name, each error naming a real defect; otherwise succeeds with a report that follows the row-count law, carries exactly both sides' normalised keys, and whose every row is well classified, shows only input records and is missing on a side exactly when that side lacks its key, with every record and same-key pair shown |
| Scenarios.JoinSingletons | reconcile.py:41-47 | two single records join into one pair when their keys agree, and into one lone row each when they do not |
| Scenarios.MatchingRecords | reconcile.py:49-60 | two same-key records give one row with both amounts, their difference, and a status set by the tolerance |
| Scenarios.DisjointRecords | reconcile.py:49-60 | two different-key records give a `missing_in_practice` row and a `missing_in_bank` row |
| Scenarios.LedgersReconcile | reconcile.py:18-64 | two one-row ledgers with default columns reconcile to the finished outer join of their two records |
| Scenarios.PaddedReferenceMismatch | reconcile.py:18-64 | bank `" A100 "` 250.00 against practice `"A100"` 250.03 gives one `amount_mismatch` row with difference −0.03 |
| Scenarios.UnparseableAmountMatchesZero | reconcile.py:13-15 | an unparseable amount counts as 0 and matches a zero amount |
| Scenarios.RepeatedReferenceFails | reconcile.py:32 | a bank header naming `Reference` twice fails with `DuplicateColumn` for the bank reference |
| Scenarios.UnmatchedReferences | reconcile.py:18-64 | bank `A200` and practice `B300` give one `missing_in_practice` row and one `missing_in_bank` row |

The reserved names are `Reference`, `_merge`, `_left_indicator` and `_right_indicator`, which the merge refuses, and the other side's `Amount_*` name. That last clash suffixes both columns apart, so line 60 cannot find the amount.

## Left out

- `load_excel`, `main`, argument parsing, and reading and writing Excel files (reconcile.py:5-10, 67-105) are I/O. `load_excel` turns blank cells into `""`; `NormalizeAmount` maps such blank text to 0.
- Floating point: amounts and the tolerance are whole cents. With binary floats, reconcile.py:51 computes `abs(100.00 - 100.01)` as about 0.010000000000005116, which is above 0.01, so the source says `amount_mismatch`. The model, working in cents, computes |10000 − 10001| = 1 ≤ 1 and says `matched`.
- Normalize.ReferenceKey: `showNumber` renders a number from its value alone. pandas' `astype(str)` depends on the column's dtype. An all-integer reference column renders 100 as `"100"`. A column with a blank cell is float (or object after `load_excel`'s `fillna("")`) and renders it as `"100.0"`. So two ledgers with the numeric reference 100 may fail to join in the source when only one of them has a blank reference cell, while the model joins them.
- Normalize.NormalizeAmount: the grammar of `pd.to_numeric` is the abstract `Conversions.parseNumber`, and only blank text is fixed to 0 by the model itself. The rendering `astype(str)` gives to a number cell is the abstract `Conversions.showNumber`. `Coherent` records what the two are expected to satisfy, and the lemma `NormalizeRenderedAmount` checks that assumption against the amount rule. No line of reconcile.py normalises a rendered number, so that lemma is not a model of the source.
- Row order: pandas' outer merge sorts the keys. The model emits rows in a fixed bank-then-practice order and states its properties as counts and memberships.
- Output columns:
  - The model keeps each side's remaining columns apart (`bankColumns`, `practiceColumns`). It does not model `_x`/`_y` suffixing of same-named columns, NaN filling of the absent side's columns, or column order.
  - It also does not model a remaining column named `difference` or `status` being overwritten.
- Reconciler.Reconcile: some column layouts diverge from the source.
  - A side's reference and amount columns may coincide while that side also has a separate column named `Reference`. The source then joins on that raw, unstripped column, and whether this works depends on the column's dtype. The model reports `KeyColumnLost` instead.
  - A remaining column named like its own side's `Amount_*` column is not treated as an error.
  - Suffix collisions such as an existing `Date_x` are not treated as errors either.
  - A header may repeat a column other than the four named ones. A row is a map with one cell per name, so the model keeps one copy and does not follow what the merge does with repeated columns.
  - When several join-time defects occur together, the model does not promise to report the one pandas raises first.
- `Tables.WellFormed` (every row holds exactly the header's columns) is what a data frame guarantees. `Reconcile` does not require it, because its results hold for any table; only `Reconciler.UsableRecordsAvoidReservedNames` assumes it.
- Inputs are not modified (reconcile.py:28-29). This holds by construction: tables are immutable values.

=== FILE: join.dfy ===
/** The full outer join of the two normalised sides on their reference key,
    with the provenance indicator of every joined row. Every pairing of a
    bank record and a practice record with the same key is emitted (so
    duplicate keys multiply), a bank record without a partner is emitted
    once on its own, and so is a practice record without a partner.

    Rows are produced in a fixed order (bank order, each bank record followed
    by its partners in practice order, then the unmatched practice records),
    but the properties below are stated as counts and memberships, which do
    not depend on that order. */
module Join {
  import opened Normalize

  /** The merge indicator: which side(s) contributed the row. */
  datatype Provenance = Both | LeftOnly | RightOnly

  /** One row of the outer join, tagged by construction with its provenance. */
  datatype JoinedRow = Pair(bank: Record, practice: Record) | BankAlone(bank: Record) | PracticeAlone(practice: Record) {

    /** The shared `Reference` key of the row. */
    function Key(): string {
      if PracticeAlone? then practice.reference else bank.reference
    }

    function Indicator(): Provenance {
      match this
      case Pair(_, _) => Both
      case BankAlone(_) => LeftOnly
      case PracticeAlone(_) => RightOnly
    }
  }

  /** The set of keys of a side. */
  function Keys(rs: seq<Record>): set<string> {
    set r | r in rs :: r.reference
  }

  /** How many records of a side carry key `k`. */
  function Occurrences(rs: seq<Record>, k: string): nat {
    if rs == [] then 0 else (if rs[0].reference == k then 1 else 0) + Occurrences(rs[1..], k)
  }

  /** A key occurs in a side exactly when some record of it carries the key. */
  lemma {:induction false} OccurrencesPositive(rs: seq<Record>, k: string)
    ensures Occurrences(rs, k) > 0 <==> k in Keys(rs)
  {
    if rs != [] {
      OccurrencesPositive(rs[1..], k);
      assert Keys(rs) == {rs[0].reference} + Keys(rs[1..]) by {
        assert rs == [rs[0]] + rs[1..];
      }
    }
  }

  /** The records of a side that carry key `k`, in order. */
  function WithKey(rs: seq<Record>, k: string): (qs: seq<Record>)
    ensures |qs| == Occurrences(rs, k)
    ensures forall q :: q in qs <==> q in rs && q.reference == k
  {
    if rs == [] then []
    else
      assert forall q :: q in rs <==> q == rs[0] || q in rs[1..];
      (if rs[0].reference == k then [rs[0]] else []) + WithKey(rs[1..], k)
  }

  /** A bank record paired with each of the given practice records. */
  function PairWith(b: Record, qs: seq<Record>): (ms: seq<JoinedRow>)
    ensures |ms| == |qs|
    ensures forall m :: m in ms ==> m.Pair? && m.bank == b && m.practice in qs
    ensures forall q :: q in qs ==> Pair(b, q) in ms
  {
    if qs == [] then [] else [Pair(b, qs[0])] + PairWith(b, qs[1..])
  }

  /** The rows one bank record contributes: a pair with every practice
      record of the same key, or the record alone when there is none. */
  function JoinOne(b: Record, ps: seq<Record>): seq<JoinedRow> {
    var qs := WithKey(ps, b.reference);
    if qs == [] then [BankAlone(b)] else PairWith(b, qs)
  }

  /** The rows contributed by the bank side: exactly the same-key pairs and
      the bank records with no practice partner. */
  function JoinBank(bs: seq<Record>, ps: seq<Record>): (ms: seq<JoinedRow>)
    ensures forall m :: m in ms && m.Pair? ==>
              m.bank in bs && m.practice in ps && m.bank.reference == m.practice.reference
    ensures forall m :: m in ms && m.BankAlone? ==>
              m.bank in bs && Occurrences(ps, m.bank.reference) == 0
    ensures forall m :: m in ms ==> !m.PracticeAlone?
    ensures forall b, p :: b in bs && p in ps && b.reference == p.reference ==> Pair(b, p) in ms
    ensures forall b :: b in bs && Occurrences(ps, b.reference) == 0 ==> BankAlone(b) in ms
  {
    if bs == [] then []
    else
      assert forall b :: b in bs <==> b == bs[0] || b in bs[1..];
      JoinOne(bs[0], ps) + JoinBank(bs[1..], ps)
  }

  /** The practice records that no bank record shares a key with, each alone. */
  function UnmatchedPractice(ps: seq<Record>, bs: seq<Record>): (ms: seq<JoinedRow>)
    ensures forall m :: m in ms <==>
              m.PracticeAlone? && m.practice in ps && Occurrences(bs, m.practice.reference) == 0
  {
    if ps == [] then []
    else
      assert forall p :: p in ps <==> p == ps[0] || p in ps[1..];
      (if Occurrences(bs, ps[0].reference) == 0 then [PracticeAlone(ps[0])] else [])
      + UnmatchedPractice(ps[1..], bs)
  }

  /** Whether a joined row is justified by the inputs: a pair joins two
      records of the same key, one from each side, and a lone record comes
      from its side and has no partner on the other. */
  predicate Justified(m: JoinedRow, bs: seq<Record>, ps: seq<Record>) {
    match m
    case Pair(b, p) => b in bs && p in ps && b.reference == p.reference
    case BankAlone(b) => b in bs && Occurrences(ps, b.reference) == 0
    case PracticeAlone(p) => p in ps && Occurrences(bs, p.reference) == 0
  }

  /** The full outer join. Every row is justified by the inputs, and every
      same-key pair and every partnerless record of either side is present. */
  function OuterJoin(bs: seq<Record>, ps: seq<Record>): (ms: seq<JoinedRow>)
    ensures forall m :: m in ms ==> Justified(m, bs, ps)
    ensures forall b, p :: b in bs && p in ps && b.reference == p.reference ==> Pair(b, p) in ms
    ensures forall b :: b in bs && Occurrences(ps, b.reference) == 0 ==> BankAlone(b) in ms
    ensures forall p :: p in ps && Occurrences(bs, p.reference) == 0 ==> PracticeAlone(p) in ms
  {
    JoinBank(bs, ps) + UnmatchedPractice(ps, bs)
  }

  /** The keys carried by joined rows. */
  function JoinedKeys(ms: seq<JoinedRow>): set<string> {
    set m | m in ms :: m.Key()
  }

  /** Completeness of the outer join: the joined keys are exactly the keys of
      the two sides, none lost and none invented. */
  lemma OuterJoinKeys(bs: seq<Record>, ps: seq<Record>)
    ensures JoinedKeys(OuterJoin(bs, ps)) == Keys(bs) + Keys(ps)
  {
    var ms := OuterJoin(bs, ps);
    forall k | k in JoinedKeys(ms) ensures k in Keys(bs) + Keys(ps) {
      var m :| m in ms && m.Key() == k;
      assert Justified(m, bs, ps);
    }
    forall k | k in Keys(bs) + Keys(ps) ensures k in JoinedKeys(ms) {
      if k in Keys(bs) {
        var b :| b in bs && b.reference == k;
        if Occurrences(ps, k) == 0 {
          assert BankAlone(b) in ms;
        } else {
          OccurrencesPositive(ps, k);
          var p :| p in ps && p.reference == k;
          assert Pair(b, p) in ms;
        }
      } else {
        var p :| p in ps && p.reference == k;
        OccurrencesPositive(bs, k);
        assert PracticeAlone(p) in ms;
      }
    }
  }

  /** The multiset of (key, provenance) tags of the joined rows. */
  function Tags(ms: seq<JoinedRow>): multiset<(string, Provenance)> {
    if ms == [] then multiset{} else multiset{(ms[0].Key(), ms[0].Indicator())} + Tags(ms[1..])
  }

  lemma {:induction false} TagsAppend(xs: seq<JoinedRow>, ys: seq<JoinedRow>)
    ensures Tags(xs + ys) == Tags(xs) + Tags(ys)
  {
    if xs == [] {
      assert xs + ys == ys;
    } else {
      assert (xs + ys)[1..] == xs[1..] + ys;
      TagsAppend(xs[1..], ys);
    }
  }

  lemma {:induction false} TagsPairWith(b: Record, qs: seq<Record>)
    ensures Tags(PairWith(b, qs)) == multiset{}[(b.reference, Both) := |qs|]
  {
    if qs != [] {
      TagsPairWith(b, qs[1..]);
    }
  }

  lemma TagsJoinOne(b: Record, ps: seq<Record>)
    ensures Tags(JoinOne(b, ps)) ==
              if Occurrences(ps, b.reference) == 0 then multiset{(b.reference, LeftOnly)}
              else multiset{}[(b.reference, Both) := Occurrences(ps, b.reference)]
  {
    TagsPairWith(b, WithKey(ps, b.reference));
  }

  lemma JoinBankStep(bs: seq<Record>, ps: seq<Record>)
    requires bs != []
    ensures Tags(JoinBank(bs, ps)) == Tags(JoinOne(bs[0], ps)) + Tags(JoinBank(bs[1..], ps))
  {
    TagsAppend(JoinOne(bs[0], ps), JoinBank(bs[1..], ps));
  }

  /** The tags of key `k` that the first bank record adds to the bank side. */
  lemma JoinBankStepAt(bs: seq<Record>, ps: seq<Record>, k: string)
    requires bs != []
    ensures var all, rest := Tags(JoinBank(bs, ps)), Tags(JoinBank(bs[1..], ps));
            var mine := bs[0].reference == k;
            && all[(k, Both)] == (if mine then Occurrences(ps, k) else 0) + rest[(k, Both)]
            && all[(k, LeftOnly)] == (if mine && Occurrences(ps, k) == 0 then 1 else 0) + rest[(k, LeftOnly)]
            && all[(k, RightOnly)] == rest[(k, RightOnly)]
  {
    JoinBankStep(bs, ps);
    TagsJoinOne(bs[0], ps);
  }

  /** The bank side holds one pair per (bank, practice) record pair of key `k`. */
  lemma {:induction false} JoinBankPairs(bs: seq<Record>, ps: seq<Record>, k: string)
    ensures Tags(JoinBank(bs, ps))[(k, Both)] == Occurrences(bs, k) * Occurrences(ps, k)
  {
    if bs != [] {
      JoinBankStepAt(bs, ps, k);
      JoinBankPairs(bs[1..], ps, k);
      var here := if bs[0].reference == k then 1 else 0;
      PairCountStep(Tags(JoinBank(bs, ps))[(k, Both)], Tags(JoinBank(bs[1..], ps))[(k, Both)],
                    here, Occurrences(bs, k), Occurrences(bs[1..], k), Occurrences(ps, k));
    }
  }

  /** The bank side holds every bank record of key `k` alone when the
      practice side lacks `k`, and none otherwise. */
  lemma {:induction false} JoinBankAlone(bs: seq<Record>, ps: seq<Record>, k: string)
    ensures Tags(JoinBank(bs, ps))[(k, LeftOnly)] == if Occurrences(ps, k) == 0 then Occurrences(bs, k) else 0
  {
    if bs != [] {
      JoinBankStepAt(bs, ps, k);
      JoinBankAlone(bs[1..], ps, k);
    }
  }

  /** The bank side holds no practice-only row. */
  lemma {:induction false} JoinBankNoRight(bs: seq<Record>, ps: seq<Record>, k: string)
    ensures Tags(JoinBank(bs, ps))[(k, RightOnly)] == 0
  {
    if bs != [] {
      JoinBankStepAt(bs, ps, k);
      JoinBankNoRight(bs[1..], ps, k);
    }
  }

  /** One more bank record of the key (`here == 1`) adds one pair per practice record of it. */
  lemma PairCountStep(all: nat, rest: nat, here: nat, total: nat, cb: nat, cp: nat)
    requires here <= 1 && total == here + cb
    requires all == (if here == 1 then cp else 0) + rest && rest == cb * cp
    ensures all == total * cp
  {
    MultiplySuccessor(here, cb, cp);
  }

  lemma MultiplySuccessor(h: nat, x: nat, y: nat)
    ensures (h + x) * y == h * y + x * y
  {
  }

  /** The practice side's lone rows with key `k`: all practice records of
      that key when the bank side lacks it, and none otherwise. */
  lemma {:induction false} TagsUnmatchedPractice(ps: seq<Record>, bs: seq<Record>, k: string)
    ensures Tags(UnmatchedPractice(ps, bs))[(k, RightOnly)] == if Occurrences(bs, k) == 0 then Occurrences(ps, k) else 0
    ensures Tags(UnmatchedPractice(ps, bs))[(k, Both)] == 0
    ensures Tags(UnmatchedPractice(ps, bs))[(k, LeftOnly)] == 0
  {
    if ps != [] {
      var head: seq<JoinedRow> := if Occurrences(bs, ps[0].reference) == 0 then [PracticeAlone(ps[0])] else [];
      TagsAppend(head, UnmatchedPractice(ps[1..], bs));
      TagsUnmatchedPractice(ps[1..], bs, k);
    }
  }

  /** The join law, key by key: for every key `k`, the outer join holds
      (bank rows of k) x (practice rows of k) pairs, every bank row of k alone
      when the practice side lacks k, every practice row of k alone when the
      bank side lacks k, and nothing else with key k. */
  lemma OuterJoinKeyLaw(bs: seq<Record>, ps: seq<Record>, k: string)
    ensures Tags(OuterJoin(bs, ps))[(k, Both)] == Occurrences(bs, k) * Occurrences(ps, k)
    ensures Tags(OuterJoin(bs, ps))[(k, LeftOnly)] == if Occurrences(ps, k) == 0 then Occurrences(bs, k) else 0
    ensures Tags(OuterJoin(bs, ps))[(k, RightOnly)] == if Occurrences(bs, k) == 0 then Occurrences(ps, k) else 0
  {
    TagsAppend(JoinBank(bs, ps), UnmatchedPractice(ps, bs));
    JoinBankPairs(bs, ps, k);
    JoinBankAlone(bs, ps, k);
    JoinBankNoRight(bs, ps, k);
    TagsUnmatchedPractice(ps, bs, k);
  }

  /** How many joined rows carry key `k`. */
  function RowsWithKey(ms: seq<JoinedRow>, k: string): nat {
    if ms == [] then 0 else (if ms[0].Key() == k then 1 else 0) + RowsWithKey(ms[1..], k)
  }

  lemma {:induction false} RowsWithKeyTags(ms: seq<JoinedRow>, k: string)
    ensures RowsWithKey(ms, k) == Tags(ms)[(k, Both)] + Tags(ms)[(k, LeftOnly)] + Tags(ms)[(k, RightOnly)]
  {
    if ms != [] {
      RowsWithKeyTags(ms[1..], k);
    }
  }

  /** The number of output rows per key: the product of the two sides'
      counts when both sides have the key, and otherwise the count of the one
      side that has it (zero for a key neither side has). */
  lemma OuterJoinRowsPerKey(bs: seq<Record>, ps: seq<Record>, k: string)
    ensures RowsWithKey(OuterJoin(bs, ps), k) ==
              if Occurrences(bs, k) > 0 && Occurrences(ps, k) > 0
              then Occurrences(bs, k) * Occurrences(ps, k)
              else Occurrences(bs, k) + Occurrences(ps, k)
  {
    RowsWithKeyTags(OuterJoin(bs, ps), k);
    OuterJoinKeyLaw(bs, ps, k);
  }

  /** The number of (bank, practice) record pairs that share a key. */
  function PairCount(bs: seq<Record>, ps: seq<Record>): nat {
    if bs == [] then 0 else Occurrences(ps, bs[0].reference) + PairCount(bs[1..], ps)
  }

  /** How many records of `rs` have no record of the same key in `others`. */
  function UnmatchedCount(rs: seq<Record>, others: seq<Record>): nat {
    if rs == [] then 0
    else (if Occurrences(others, rs[0].reference) == 0 then 1 else 0) + UnmatchedCount(rs[1..], others)
  }

  lemma {:induction false} JoinBankLength(bs: seq<Record>, ps: seq<Record>)
    ensures |JoinBank(bs, ps)| == PairCount(bs, ps) + UnmatchedCount(bs, ps)
  {
    if bs != [] {
      assert JoinBank(bs, ps) == JoinOne(bs[0], ps) + JoinBank(bs[1..], ps);
      JoinBankLength(bs[1..], ps);
    }
  }

  lemma {:induction false} UnmatchedPracticeLength(ps: seq<Record>, bs: seq<Record>)
    ensures |UnmatchedPractice(ps, bs)| == UnmatchedCount(ps, bs)
  {
    if ps != [] {
      UnmatchedPracticeLength(ps[1..], bs);
    }
  }

  predicate Distinct(ks: seq<string>) {
    forall i, j :: 0 <= i < j < |ks| ==> ks[i] != ks[j]
  }

  /** The sum, over the keys `ks`, of (bank records with the key) x
      (practice records with the key). */
  function SumOfProducts(ks: seq<string>, bs: seq<Record>, ps: seq<Record>): nat {
    if ks == [] then 0
    else Occurrences(bs, ks[0]) * Occurrences(ps, ks[0]) + SumOfProducts(ks[1..], bs, ps)
  }

  /** The keys present on both sides, each listed once. */
  function CommonKeys(bs: seq<Record>, ps: seq<Record>): (ks: seq<string>)
    ensures Distinct(ks)
    ensures forall k :: k in ks <==> Occurrences(bs, k) > 0 && Occurrences(ps, k) > 0
  {
    if bs == [] then []
    else
      var rest := CommonKeys(bs[1..], ps);
      var k := bs[0].reference;
      if Occurrences(ps, k) > 0 && k !in rest then [k] + rest else rest
  }

  lemma {:induction false} SumOfProductsNoBank(ks: seq<string>, ps: seq<Record>)
    ensures SumOfProducts(ks, [], ps) == 0
  {
    if ks != [] {
      SumOfProductsNoBank(ks[1..], ps);
    }
  }

  /** Adding one bank record adds the practice count of its key, when that
      key is among the (distinct) keys summed over. */
  lemma {:induction false} SumOfProductsCons(ks: seq<string>, b: Record, bs: seq<Record>, ps: seq<Record>)
    requires Distinct(ks)
    ensures SumOfProducts(ks, [b] + bs, ps) ==
              SumOfProducts(ks, bs, ps) + if b.reference in ks then Occurrences(ps, b.reference) else 0
  {
    if ks != [] {
      assert Distinct(ks[1..]);
      SumOfProductsCons(ks[1..], b, bs, ps);
      var k := ks[0];
      assert ([b] + bs)[1..] == bs;
      var here := if b.reference == k then 1 else 0;
      assert Occurrences([b] + bs, k) == here + Occurrences(bs, k);
      MultiplySuccessor(here, Occurrences(bs, k), Occurrences(ps, k));
      assert b.reference in ks <==> b.reference == k || b.reference in ks[1..];
    }
  }

  /** Counting same-key pairs record by record equals summing the products of
      the two sides' counts over any list of distinct keys that includes all
      keys the sides share. */
  lemma {:induction false} PairCountByKey(ks: seq<string>, bs: seq<Record>, ps: seq<Record>)
    requires Distinct(ks)
    requires forall k :: Occurrences(bs, k) > 0 && Occurrences(ps, k) > 0 ==> k in ks
    ensures SumOfProducts(ks, bs, ps) == PairCount(bs, ps)
  {
    if bs == [] {
      SumOfProductsNoBank(ks, ps);
    } else {
      var b := bs[0];
      assert bs == [b] + bs[1..];
      SumOfProductsCons(ks, b, bs[1..], ps);
      PairCountByKey(ks, bs[1..], ps);
    }
  }

  /** The row-count law of the outer join: the output length is the sum,
      over the keys both sides share, of the product of the two sides' counts
      of that key, plus the unmatched bank records, plus the unmatched
      practice records. */
  lemma OuterJoinSize(bs: seq<Record>, ps: seq<Record>)
    ensures |OuterJoin(bs, ps)| ==
              SumOfProducts(CommonKeys(bs, ps), bs, ps) + UnmatchedCount(bs, ps) + UnmatchedCount(ps, bs)
  {
    JoinBankLength(bs, ps);
    UnmatchedPracticeLength(ps, bs);
    PairCountByKey(CommonKeys(bs, ps), bs, ps);
  }
}

=== FILE: normalize.dfy ===
/** The per-side normalisation that runs before the join: the reference cell
    becomes a trimmed string key, the amount cell becomes a number (zero when
    it cannot be read as one), and both named columns are renamed away from
    the row's remaining columns. */
module Normalize {
  import opened Results
  import opened Tables
  import opened Text

  /** One input row after normalisation: its join key (the canonical
      `Reference` column), its amount (`Amount_bank` or `Amount_practice`) and
      the row's other, untouched columns. */
  datatype Record = Record(reference: string, amount: int, columns: Row)

  /** Casting a cell to a string: text stays as it is, a number is rendered by
      the library, and the missing marker renders as "nan". */
  function CellText(c: Cell, conv: Conversions): string {
    match c
    case Text(s) => s
    case Number(n) => conv.showNumber(n)
    case Missing => "nan"
  }

  /** The join key made from a reference cell: its text with surrounding
      whitespace stripped. */
  function ReferenceKey(c: Cell, conv: Conversions): (k: string)
    ensures IsTrimmed(k)
    ensures c.Text? && IsTrimmed(c.text) ==> k == c.text
  {
    var s := CellText(c, conv);
    TrimIdempotent(s);
    Trim(s)
  }

  /** Lenient amount parsing: a number is kept, a missing cell and a blank
      text (the empty or all-whitespace text that blank cells arrive as)
      become 0, and other text is parsed, becoming 0 when it is not a
      number. It never fails. */
  function NormalizeAmount(c: Cell, conv: Conversions): (r: int)
    ensures c.Number? ==> r == c.value
    ensures c.Missing? ==> r == 0
    ensures c.Text? && AllWhitespace(c.text) ==> r == 0
    ensures r != 0 ==> c.Number? || (c.Text? && conv.parseNumber(c.text) == Some(r))
    ensures c.Text? && !AllWhitespace(c.text) && conv.parseNumber(c.text).Some? ==> r == conv.parseNumber(c.text).value
  {
    match c
    case Number(n) => n
    case Text(s) => if AllWhitespace(s) then 0 else conv.parseNumber(s).GetOr(0)
    case Missing => 0
  }

  /** What the model assumes of the library's conversions: blank text is not
      a number, and the text rendered for a number reads back as that number. */
  ghost predicate Coherent(conv: Conversions) {
    && (forall s :: AllWhitespace(s) ==> conv.parseNumber(s).None?)
    && (forall n :: conv.parseNumber(conv.showNumber(n)) == Some(n))
  }

  /** Normalising a row: key and amount are read from the two named columns,
      which then leave the row's remaining columns. */
  function NormalizeRow(row: Row, refColumn: string, amountColumn: string, conv: Conversions): (rec: Record)
    ensures IsTrimmed(rec.reference)
    ensures rec.reference == ReferenceKey(CellAt(row, refColumn), conv)
    ensures rec.amount == NormalizeAmount(CellAt(row, amountColumn), conv)
    ensures refColumn !in rec.columns && amountColumn !in rec.columns
    ensures forall col :: col in row && col != refColumn && col != amountColumn
                          ==> col in rec.columns && rec.columns[col] == row[col]
    ensures rec.columns.Keys <= row.Keys
  {
    var rest := row - {refColumn, amountColumn};
    RemovedColumns(row, refColumn, amountColumn);
    Record(ReferenceKey(CellAt(row, refColumn), conv), NormalizeAmount(CellAt(row, amountColumn), conv), rest)
  }

  /** Normalising a table: one record per row, in row order. */
  function NormalizeTable(t: Table, refColumn: string, amountColumn: string, conv: Conversions): (rs: seq<Record>)
    ensures |rs| == |t.rows|
    ensures forall i :: 0 <= i < |rs| ==> rs[i] == NormalizeRow(t.rows[i], refColumn, amountColumn, conv)
  {
    seq(|t.rows|, i requires 0 <= i < |t.rows| => NormalizeRow(t.rows[i], refColumn, amountColumn, conv))
  }

  /** Whitespace around a textual reference does not change its key, so
      `" A100 "` on one side and `"A100"` on the other produce the same key. */
  lemma ReferenceKeyIgnoresPadding(a: string, s: string, z: string, conv: Conversions)
    requires AllWhitespace(a) && AllWhitespace(z)
    ensures ReferenceKey(Text(a + s + z), conv) == ReferenceKey(Text(s), conv)
  {
    TrimIgnoresPadding(a, s, z);
    TrimIdempotent(a + s + z);
    TrimIdempotent(s);
  }

  /** Normalising a reference twice gives the same key as normalising it once. */
  lemma ReferenceKeyIdempotent(c: Cell, conv: Conversions)
    ensures ReferenceKey(Text(ReferenceKey(c, conv)), conv) == ReferenceKey(c, conv)
  {
  }

  /** Normalising an already normalised amount leaves it unchanged. */
  lemma NormalizeAmountIdempotent(c: Cell, conv: Conversions)
    ensures NormalizeAmount(Number(NormalizeAmount(c, conv)), conv) == NormalizeAmount(c, conv)
  {
  }

  /** A number cast to text and normalised again is the number it was. */
  lemma NormalizeRenderedAmount(n: int, conv: Conversions)
    requires Coherent(conv)
    ensures NormalizeAmount(Text(CellText(Number(n), conv)), conv) == n
  {
    assert conv.parseNumber(conv.showNumber(n)) == Some(n);
  }

  lemma RemovedColumns(row: Row, a: string, b: string)
    ensures a !in row - {a, b} && b !in row - {a, b}
    ensures forall col :: col in row && col != a && col != b ==> col in row - {a, b} && (row - {a, b})[col] == row[col]
    ensures (row - {a, b}).Keys <= row.Keys
  {
  }
}

=== FILE: reconcile.dfy ===
/** The reconciler: validates the named columns, normalises both sides,
    joins them on the reference key, and annotates every joined row with the
    signed amount difference and a reconciliation status. */
module Reconciler {
  import opened Results
  import opened Tables
  import opened Normalize
  import opened Join

  /** The reconciliation status of an output row. */
  datatype Status = Matched | AmountMismatch | MissingInPractice | MissingInBank

  /** One row of the reconciliation report. An absent amount (`None`) and
      absent columns stand for the missing-value cells of the side that did
      not contribute; the provenance indicator itself is not part of it. */
  datatype OutRow = OutRow(
    reference: string,
    amountBank: Option<int>,
    amountPractice: Option<int>,
    bankColumns: Option<Row>,
    practiceColumns: Option<Row>,
    difference: int,
    status: Status)

  datatype Side = Bank | Practice

  /** Why a reconciliation fails: a named column is not in its table, or its
      header names it more than once (selecting it then gives a table, not a
      column, and stripping or parsing it fails); a side's reference and amount columns are the same column, whose rename
      to `Amount_*` then leaves that side without a `Reference` key to join
      on; or a column the rename leaves alone carries a name the join needs
      for itself (see `ReservedNames`). */
  datatype Error =
    | MissingColumn(side: Side, column: string)
    | DuplicateColumn(side: Side, column: string)
    | KeyColumnLost(side: Side)
    | NameClash(side: Side, column: string)

  /** The names of the reference and amount column of each side. */
  datatype Columns = Columns(bankReference: string, practiceReference: string, bankAmount: string, practiceAmount: string)

  /** Both sides use `Reference` and `Amount` unless told otherwise. */
  const DefaultColumns := Columns("Reference", "Reference", "Amount", "Amount")

  /** The default tolerance, 0.01 in a currency with two decimals, in cents. */
  const DefaultTolerance := 1

  function Abs(x: int): nat {
    if x < 0 then -x else x
  }

  /** `Amount_bank` of a joined row: absent when only the practice side contributed. */
  function BankAmount(m: JoinedRow): Option<int> {
    if m.PracticeAlone? then None else Some(m.bank.amount)
  }

  /** `Amount_practice` of a joined row: absent when only the bank side contributed. */
  function PracticeAmount(m: JoinedRow): Option<int> {
    if m.BankAlone? then None else Some(m.practice.amount)
  }

  /** The signed difference, bank minus practice, an absent amount counting as 0. */
  function Difference(m: JoinedRow): (d: int)
    ensures m.Pair? ==> d == m.bank.amount - m.practice.amount
    ensures m.BankAlone? ==> d == m.bank.amount
    ensures m.PracticeAlone? ==> d == -m.practice.amount
  {
    BankAmount(m).GetOr(0) - PracticeAmount(m).GetOr(0)
  }

  /** The status of a joined row, decided by its provenance and, for a row
      both sides contributed to, by whether the difference is within the
      tolerance. */
  function Classify(m: JoinedRow, tolerance: int): Status {
    match m.Indicator()
    case Both => if Abs(Difference(m)) <= tolerance then Matched else AmountMismatch
    case LeftOnly => MissingInPractice
    case RightOnly => MissingInBank
  }

  /** Every joined row gets exactly one status, and which one is fully
      determined by provenance and the tolerance test, the boundary
      `|difference| == tolerance` counting as a match. */
  lemma ClassifyPartition(m: JoinedRow, tolerance: int)
    ensures Classify(m, tolerance) == Matched <==> m.Indicator() == Both && Abs(Difference(m)) <= tolerance
    ensures Classify(m, tolerance) == AmountMismatch <==> m.Indicator() == Both && Abs(Difference(m)) > tolerance
    ensures Classify(m, tolerance) == MissingInPractice <==> m.Indicator() == LeftOnly
    ensures Classify(m, tolerance) == MissingInBank <==> m.Indicator() == RightOnly
  {
  }

  /** What a report row promises on its own, with the provenance gone: the
      difference is bank minus practice with absent amounts as 0, and the
      status says which amounts are present and, when both are, whether they
      agree within the tolerance. */
  predicate WellClassified(o: OutRow, tolerance: int) {
    && o.difference == o.amountBank.GetOr(0) - o.amountPractice.GetOr(0)
    && (o.status == Matched <==>
          o.amountBank.Some? && o.amountPractice.Some? && Abs(o.difference) <= tolerance)
    && (o.status == AmountMismatch <==>
          o.amountBank.Some? && o.amountPractice.Some? && Abs(o.difference) > tolerance)
    && (o.status == MissingInPractice <==> o.amountBank.Some? && o.amountPractice.None?)
    && (o.status == MissingInBank <==> o.amountBank.None? && o.amountPractice.Some?)
  }

  /** The report row of a joined row: its key, the amounts and columns of the
      contributing side(s), the difference and the status. */
  function Finish(m: JoinedRow, tolerance: int): (o: OutRow)
    ensures o.reference == m.Key()
    ensures WellClassified(o, tolerance)
    ensures o.amountBank.Some? <==> o.bankColumns.Some?
    ensures o.amountPractice.Some? <==> o.practiceColumns.Some?
    ensures o.amountBank.Some? <==> !m.PracticeAlone?
    ensures o.amountPractice.Some? <==> !m.BankAlone?
    ensures o.amountBank.Some? ==> m.bank == Record(o.reference, o.amountBank.value, o.bankColumns.value)
    ensures o.amountPractice.Some? ==>
              m.practice.amount == o.amountPractice.value && m.practice.columns == o.practiceColumns.value
  {
    OutRow(m.Key(),
           BankAmount(m),
           PracticeAmount(m),
           if m.PracticeAlone? then None else Some(m.bank.columns),
           if m.BankAlone? then None else Some(m.practice.columns),
           Difference(m),
           Classify(m, tolerance))
  }

  /** The report rows of a sequence of joined rows, one each, in order. */
  function FinishAll(ms: seq<JoinedRow>, tolerance: int): (os: seq<OutRow>)
    ensures |os| == |ms|
    ensures forall i :: 0 <= i < |os| ==> os[i] == Finish(ms[i], tolerance)
    ensures (set o | o in os :: o.reference) == JoinedKeys(ms)
    ensures forall o :: o in os ==> WellClassified(o, tolerance)
  {
    var os := seq(|ms|, i requires 0 <= i < |ms| => Finish(ms[i], tolerance));
    assert (set o | o in os :: o.reference) == JoinedKeys(ms) by {
      forall k | k in JoinedKeys(ms) ensures k in (set o | o in os :: o.reference) {
        var i :| 0 <= i < |ms| && ms[i].Key() == k;
        assert os[i].reference == k;
      }
    }
    os
  }

  /** A report row shows a bank record: it has the record's key, amount and columns. */
  predicate ShowsBank(o: OutRow, b: Record) {
    o.reference == b.reference && o.amountBank == Some(b.amount) && o.bankColumns == Some(b.columns)
  }

  /** A report row shows a practice record: it has the record's key, amount and columns. */
  predicate ShowsPractice(o: OutRow, p: Record) {
    o.reference == p.reference && o.amountPractice == Some(p.amount) && o.practiceColumns == Some(p.columns)
  }

  /** A report row invents nothing: each amount it shows is that of an input
      record with the row's key and columns, and the row is missing on one
      side exactly when its key is absent from that side. */
  predicate Traced(o: OutRow, bs: seq<Record>, ps: seq<Record>) {
    && (o.amountBank.Some? ==> o.bankColumns.Some? && Record(o.reference, o.amountBank.value, o.bankColumns.value) in bs)
    && (o.amountPractice.Some? ==>
          o.practiceColumns.Some? && Record(o.reference, o.amountPractice.value, o.practiceColumns.value) in ps)
    && (o.status == MissingInPractice <==> o.reference in Keys(bs) - Keys(ps))
    && (o.status == MissingInBank <==> o.reference in Keys(ps) - Keys(bs))
  }

  /** A report loses nothing: every record of either side, and every pair of
      a bank and a practice record with the same key, is shown by some row. */
  predicate Covers(os: seq<OutRow>, bs: seq<Record>, ps: seq<Record>) {
    && (forall b :: b in bs ==> exists o :: o in os && ShowsBank(o, b))
    && (forall p :: p in ps ==> exists o :: o in os && ShowsPractice(o, p))
    && (forall b, p :: b in bs && p in ps && b.reference == p.reference ==>
          exists o :: o in os && ShowsBank(o, b) && ShowsPractice(o, p))
  }

  /** The report of two normalised sides: the outer join, finished row by
      row. Its length obeys the row-count law, it carries exactly the keys of
      both sides, every row is well classified and traced back to the
      inputs, and every input record and same-key pair is shown. */
  function Report(bs: seq<Record>, ps: seq<Record>, tolerance: int): (os: seq<OutRow>)
    ensures |os| == SumOfProducts(CommonKeys(bs, ps), bs, ps) + UnmatchedCount(bs, ps) + UnmatchedCount(ps, bs)
    ensures (set o | o in os :: o.reference) == Keys(bs) + Keys(ps)
    ensures forall o :: o in os ==> WellClassified(o, tolerance)
    ensures forall o :: o in os ==> Traced(o, bs, ps)
    ensures Covers(os, bs, ps)
  {
    OuterJoinSize(bs, ps);
    OuterJoinKeys(bs, ps);
    ReportTraced(bs, ps, tolerance);
    ReportCovers(bs, ps, tolerance);
    FinishAll(OuterJoin(bs, ps), tolerance)
  }

  /** With usable columns, reconciling is reporting on the two normalised sides. */
  lemma ReconcileUsable(bank: Table, practice: Table, cols: Columns, tolerance: int, conv: Conversions)
    requires ColumnsUsable(bank, practice, cols)
    ensures Reconcile(bank, practice, cols, tolerance, conv)
            == Success(Report(BankRecords(bank, cols, conv), PracticeRecords(practice, cols, conv), tolerance))
  {
  }

  /** In a well-formed table a row has only the header's columns, so when no
      remaining header column carries one of `names`, no record's remaining
      columns do either. */
  lemma RecordsAvoidNames(t: Table, refColumn: string, amountColumn: string, names: seq<string>, conv: Conversions)
    requires WellFormed(t)
    requires forall c :: c in names ==> !Remains(t, refColumn, amountColumn, c)
    ensures forall r, c :: r in NormalizeTable(t, refColumn, amountColumn, conv) && c in names ==> c !in r.columns
  {
    var rs := NormalizeTable(t, refColumn, amountColumn, conv);
    forall r, c | r in rs && c in names
      ensures c !in r.columns
    {
      var i :| 0 <= i < |rs| && rs[i] == r;
      assert t.rows[i] in t.rows;
      assert r.columns.Keys <= t.rows[i].Keys;
      assert !Remains(t, refColumn, amountColumn, c);
    }
  }

  /** With usable columns on well-formed tables, no record that reaches the
      join carries a reserved name among its remaining columns. */
  lemma UsableRecordsAvoidReservedNames(bank: Table, practice: Table, cols: Columns, conv: Conversions)
    requires WellFormed(bank) && WellFormed(practice)
    requires ColumnsUsable(bank, practice, cols)
    ensures forall b, c :: b in BankRecords(bank, cols, conv) && c in ReservedNames(Bank) ==> c !in b.columns
    ensures forall p, c :: p in PracticeRecords(practice, cols, conv) && c in ReservedNames(Practice) ==> c !in p.columns
  {
    RecordsAvoidNames(bank, cols.bankReference, cols.bankAmount, ReservedNames(Bank), conv);
    RecordsAvoidNames(practice, cols.practiceReference, cols.practiceAmount, ReservedNames(Practice), conv);
  }

  /** The report row of a justified joined row is traced back to the inputs. */
  lemma FinishTraced(m: JoinedRow, bs: seq<Record>, ps: seq<Record>, tolerance: int)
    requires Justified(m, bs, ps)
    ensures Traced(Finish(m, tolerance), bs, ps)
  {
    var k := m.Key();
    OccurrencesPositive(bs, k);
    OccurrencesPositive(ps, k);
    match m
    case Pair(b, p) =>
      assert b.reference in Keys(bs) && p.reference in Keys(ps);
    case BankAlone(b) =>
      assert b.reference in Keys(bs);
    case PracticeAlone(p) =>
      assert p.reference in Keys(ps);
  }

  lemma ReportTraced(bs: seq<Record>, ps: seq<Record>, tolerance: int)
    ensures forall o :: o in FinishAll(OuterJoin(bs, ps), tolerance) ==> Traced(o, bs, ps)
  {
    var ms := OuterJoin(bs, ps);
    var os := FinishAll(ms, tolerance);
    forall o | o in os
      ensures Traced(o, bs, ps)
    {
      var i :| 0 <= i < |os| && os[i] == o;
      FinishTraced(ms[i], bs, ps, tolerance);
    }
  }

  /** The report row of every joined row is in the report. */
  lemma Finished(ms: seq<JoinedRow>, m: JoinedRow, tolerance: int)
    requires m in ms
    ensures Finish(m, tolerance) in FinishAll(ms, tolerance)
  {
    var i :| 0 <= i < |ms| && ms[i] == m;
    assert FinishAll(ms, tolerance)[i] == Finish(m, tolerance);
  }

  lemma ReportCovers(bs: seq<Record>, ps: seq<Record>, tolerance: int)
    ensures Covers(FinishAll(OuterJoin(bs, ps), tolerance), bs, ps)
  {
    var ms := OuterJoin(bs, ps);
    var os := FinishAll(ms, tolerance);
    forall b, p | b in bs && p in ps && b.reference == p.reference
      ensures exists o :: o in os && ShowsBank(o, b) && ShowsPractice(o, p)
    {
      Finished(ms, Pair(b, p), tolerance);
      assert ShowsBank(Finish(Pair(b, p), tolerance), b);
    }
    forall b | b in bs
      ensures exists o :: o in os && ShowsBank(o, b)
    {
      if Occurrences(ps, b.reference) == 0 {
        Finished(ms, BankAlone(b), tolerance);
        assert ShowsBank(Finish(BankAlone(b), tolerance), b);
      } else {
        OccurrencesPositive(ps, b.reference);
        var p :| p in ps && p.reference == b.reference;
        Finished(ms, Pair(b, p), tolerance);
        assert ShowsBank(Finish(Pair(b, p), tolerance), b);
      }
    }
    forall p | p in ps
      ensures exists o :: o in os && ShowsPractice(o, p)
    {
      if Occurrences(bs, p.reference) == 0 {
        Finished(ms, PracticeAlone(p), tolerance);
        assert ShowsPractice(Finish(PracticeAlone(p), tolerance), p);
      } else {
        OccurrencesPositive(bs, p.reference);
        var b :| b in bs && b.reference == p.reference;
        Finished(ms, Pair(b, p), tolerance);
        assert ShowsPractice(Finish(Pair(b, p), tolerance), p);
      }
    }
  }

  /** The header of `t` names `c` exactly once. */
  predicate Single(t: Table, c: string) {
    multiset(t.columns)[c] == 1
  }

  /** The header of `t` names `c` more than once. */
  predicate Repeated(t: Table, c: string) {
    multiset(t.columns)[c] > 1
  }

  /** What goes wrong when selecting the named column `c` of `t`: nothing
      when the header names it once; otherwise it is missing or repeated. */
  function ColumnProblem(t: Table, side: Side, c: string): (e: Option<Error>)
    ensures e.None? <==> Single(t, c)
    ensures e == Some(MissingColumn(side, c)) <==> c !in t.columns
    ensures e == Some(DuplicateColumn(side, c)) <==> Repeated(t, c)
  {
    if c !in t.columns then Some(MissingColumn(side, c))
    else if multiset(t.columns)[c] > 1 then Some(DuplicateColumn(side, c))
    else None
  }

  /** The named columns each appear exactly once, each side's key and amount
      are distinct columns, and no remaining column carries a reserved name. */
  predicate ColumnsUsable(bank: Table, practice: Table, cols: Columns) {
    && Single(bank, cols.bankReference)
    && Single(practice, cols.practiceReference)
    && Single(bank, cols.bankAmount)
    && Single(practice, cols.practiceAmount)
    && cols.bankReference != cols.bankAmount
    && cols.practiceReference != cols.practiceAmount
    && (forall c :: c in ReservedNames(Bank) ==> !Remains(bank, cols.bankReference, cols.bankAmount, c))
    && (forall c :: c in ReservedNames(Practice) ==> !Remains(practice, cols.practiceReference, cols.practiceAmount, c))
  }

  /** Whether an error describes a real defect of the inputs. */
  predicate Describes(e: Error, bank: Table, practice: Table, cols: Columns) {
    match e
    case MissingColumn(Bank, c) =>
      c !in bank.columns && (c == cols.bankReference || c == cols.bankAmount)
    case MissingColumn(Practice, c) =>
      c !in practice.columns && (c == cols.practiceReference || c == cols.practiceAmount)
    case DuplicateColumn(Bank, c) =>
      Repeated(bank, c) && (c == cols.bankReference || c == cols.bankAmount)
    case DuplicateColumn(Practice, c) =>
      Repeated(practice, c) && (c == cols.practiceReference || c == cols.practiceAmount)
    case KeyColumnLost(Bank) => cols.bankReference == cols.bankAmount
    case KeyColumnLost(Practice) => cols.practiceReference == cols.practiceAmount
    case NameClash(Bank, c) =>
      c in ReservedNames(Bank) && Remains(bank, cols.bankReference, cols.bankAmount, c)
    case NameClash(Practice, c) =>
      c in ReservedNames(Practice) && Remains(practice, cols.practiceReference, cols.practiceAmount, c)
  }

  /** A column of `t` that keeps its name through the rename: neither the
      reference nor the amount column. */
  predicate Remains(t: Table, refColumn: string, amountColumn: string, c: string) {
    c in t.columns && c != refColumn && c != amountColumn
  }

  /** The names a side's remaining columns must not carry: the join key
      `Reference` (a second column of that name makes the key ambiguous), the
      merge indicator `_merge` and the two helper columns the merge builds it
      from, `_left_indicator` and `_right_indicator` (the merge refuses a
      table holding any of them), and the other side's amount column (both
      would be suffixed apart, and the difference could not find it). */
  function ReservedNames(side: Side): seq<string> {
    ["Reference", "_merge", "_left_indicator", "_right_indicator",
     if side == Bank then "Amount_practice" else "Amount_bank"]
  }

  /** The first of `names` that is a remaining column of `t`, if any. */
  function FindClash(t: Table, refColumn: string, amountColumn: string, names: seq<string>): (c: Option<string>)
    ensures c.None? <==> forall n :: n in names ==> !Remains(t, refColumn, amountColumn, n)
    ensures c.Some? ==> c.value in names && Remains(t, refColumn, amountColumn, c.value)
  {
    if names == [] then None
    else if Remains(t, refColumn, amountColumn, names[0]) then Some(names[0])
    else FindClash(t, refColumn, amountColumn, names[1..])
  }

  /** The normalised bank records. */
  function BankRecords(bank: Table, cols: Columns, conv: Conversions): seq<Record> {
    NormalizeTable(bank, cols.bankReference, cols.bankAmount, conv)
  }

  /** The normalised practice records. */
  function PracticeRecords(practice: Table, cols: Columns, conv: Conversions): seq<Record> {
    NormalizeTable(practice, cols.practiceReference, cols.practiceAmount, conv)
  }

  /** Selecting the four named columns, as the stripping and parsing steps
      do one after another: bank reference, practice reference, bank amount,
      practice amount. The first column that is missing or repeated is the
      problem reported; there is none exactly when all four appear once. */
  function SelectionProblem(bank: Table, practice: Table, cols: Columns): (e: Option<Error>)
    ensures e.None? <==> Single(bank, cols.bankReference) && Single(practice, cols.practiceReference)
                         && Single(bank, cols.bankAmount) && Single(practice, cols.practiceAmount)
    ensures cols.bankReference !in bank.columns ==> e == Some(MissingColumn(Bank, cols.bankReference))
    ensures Repeated(bank, cols.bankReference) ==> e == Some(DuplicateColumn(Bank, cols.bankReference))
    ensures Single(bank, cols.bankReference) && cols.practiceReference !in practice.columns
            ==> e == Some(MissingColumn(Practice, cols.practiceReference))
    ensures Single(bank, cols.bankReference) && Repeated(practice, cols.practiceReference)
            ==> e == Some(DuplicateColumn(Practice, cols.practiceReference))
    ensures Single(bank, cols.bankReference) && Single(practice, cols.practiceReference)
            && cols.bankAmount !in bank.columns
            ==> e == Some(MissingColumn(Bank, cols.bankAmount))
    ensures Single(bank, cols.bankReference) && Single(practice, cols.practiceReference)
            && Repeated(bank, cols.bankAmount)
            ==> e == Some(DuplicateColumn(Bank, cols.bankAmount))
    ensures Single(bank, cols.bankReference) && Single(practice, cols.practiceReference)
            && Single(bank, cols.bankAmount) && cols.practiceAmount !in practice.columns
            ==> e == Some(MissingColumn(Practice, cols.practiceAmount))
    ensures Single(bank, cols.bankReference) && Single(practice, cols.practiceReference)
            && Single(bank, cols.bankAmount) && Repeated(practice, cols.practiceAmount)
            ==> e == Some(DuplicateColumn(Practice, cols.practiceAmount))
  {
    var bankRef := ColumnProblem(bank, Bank, cols.bankReference);
    var practiceRef := ColumnProblem(practice, Practice, cols.practiceReference);
    var bankAmount := ColumnProblem(bank, Bank, cols.bankAmount);
    var practiceAmount := ColumnProblem(practice, Practice, cols.practiceAmount);
    if bankRef.Some? then bankRef
    else if practiceRef.Some? then practiceRef
    else if bankAmount.Some? then bankAmount
    else practiceAmount
  }

  /** Reconciles the bank table against the practice table.

      It fails, before producing anything, when a named column is missing or
      repeated, when a side's key and amount column coincide, or when a
      remaining column carries a reserved name; the named columns are looked
      up first, in the order bank reference, practice reference, bank amount,
      practice amount, and the first one missing or repeated is reported (see
      `SelectionProblem`). On success the report has one row per same-key
      pair plus one per unmatched record of either side (grouped by key: the sum of
      the products of the two sides' counts over the shared keys), carries
      exactly the normalised keys of both sides, and every row's difference
      and status are as `WellClassified` describes. Every row is traced back
      to the records it shows, and every record and every same-key pair of
      records is shown by some row. The inputs are values and are left as
      they were. */
  function Reconcile(bank: Table, practice: Table, cols: Columns, tolerance: int, conv: Conversions)
    : (r: Result<seq<OutRow>, Error>)
    ensures r.Success? <==> ColumnsUsable(bank, practice, cols)
    ensures r.Failure? ==> Describes(r.error, bank, practice, cols)
    ensures SelectionProblem(bank, practice, cols).Some? ==> r == Failure(SelectionProblem(bank, practice, cols).value)
    ensures r.Failure? && (r.error.KeyColumnLost? || r.error.NameClash?) ==>
              Single(bank, cols.bankReference) && Single(practice, cols.practiceReference)
              && Single(bank, cols.bankAmount) && Single(practice, cols.practiceAmount)
    ensures r.Success? ==>
              var bs, ps := BankRecords(bank, cols, conv), PracticeRecords(practice, cols, conv);
              && |r.value| == SumOfProducts(CommonKeys(bs, ps), bs, ps) + UnmatchedCount(bs, ps) + UnmatchedCount(ps, bs)
              && (set o | o in r.value :: o.reference) == Keys(bs) + Keys(ps)
              && (forall o :: o in r.value ==> Traced(o, bs, ps))
              && Covers(r.value, bs, ps)
    ensures r.Success? ==> forall o :: o in r.value ==> WellClassified(o, tolerance)
  {
    var selection := SelectionProblem(bank, practice, cols);
    if selection.Some? then Failure(selection.value)
    else if cols.bankReference == cols.bankAmount then Failure(KeyColumnLost(Bank))
    else if cols.practiceReference == cols.practiceAmount then Failure(KeyColumnLost(Practice))
    else
      var bankClash := FindClash(bank, cols.bankReference, cols.bankAmount, ReservedNames(Bank));
      var practiceClash := FindClash(practice, cols.practiceReference, cols.practiceAmount, ReservedNames(Practice));
      if bankClash.Some? then Failure(NameClash(Bank, bankClash.value))
      else if practiceClash.Some? then Failure(NameClash(Practice, practiceClash.value))
      else Success(Report(BankRecords(bank, cols, conv), PracticeRecords(practice, cols, conv), tolerance))
  }
}

=== FILE: results.dfy ===
/** Optional values and the outcome of an operation that can fail. */
module Results {

  /** A value that may be absent; the table library represents the absent
      case as NaN. */
  datatype Option<+T> = None | Some(value: T) {

    /** The wrapped value, or `default` when there is none (`fillna`). */
    function GetOr(default: T): T {
      match this
      case Some(v) => v
      case None => default
    }
  }

  /** The outcome of an operation that either produces a value or fails with an error. */
  datatype Result<+T, +E> = Success(value: T) | Failure(error: E)
}

=== FILE: scenarios.dfy ===
/** Worked examples of the reconciler on one-row ledgers with the default
    column names and the default tolerance of one cent. */
module Scenarios {
  import opened Results
  import opened Tables
  import opened Text
  import opened Normalize
  import opened Join
  import opened Reconciler

  /** A ledger with a single row under the default column names. */
  function Ledger(reference: Cell, amount: Cell): Table {
    Table(["Reference", "Amount"], [map["Reference" := reference, "Amount" := amount]])
  }

  /** A one-row ledger normalises to one record with no other columns. */
  lemma LedgerRecord(reference: Cell, amount: Cell, conv: Conversions)
    ensures NormalizeTable(Ledger(reference, amount), "Reference", "Amount", conv)
            == [Record(ReferenceKey(reference, conv), NormalizeAmount(amount, conv), map[])]
  {
    var row := map["Reference" := reference, "Amount" := amount];
    assert CellAt(row, "Reference") == reference;
    assert CellAt(row, "Amount") == amount;
    assert row.Keys == {"Reference", "Amount"};
    assert row - {"Reference", "Amount"} == map[];
    var rs := NormalizeTable(Ledger(reference, amount), "Reference", "Amount", conv);
    assert |rs| == 1 && rs[0] == NormalizeRow(row, "Reference", "Amount", conv);
  }

  /** Two single records join into one pair when their keys agree, and into
      one lone row each when they do not. */
  lemma JoinSingletons(b: Record, p: Record)
    ensures b.reference == p.reference ==> OuterJoin([b], [p]) == [Pair(b, p)]
    ensures b.reference != p.reference ==> OuterJoin([b], [p]) == [BankAlone(b), PracticeAlone(p)]
  {
    assert [b][1..] == [] && [p][1..] == [];
    assert JoinBank([b], [p]) == JoinOne(b, [p]);
    assert Occurrences([b], p.reference) == if b.reference == p.reference then 1 else 0;
    if b.reference == p.reference {
      assert WithKey([p], b.reference) == [p];
      assert UnmatchedPractice([p], [b]) == [];
    } else {
      assert WithKey([p], b.reference) == [];
      assert UnmatchedPractice([p], [b]) == [PracticeAlone(p)];
    }
  }

  /** One space on either side of "A100" is stripped from the key. */
  lemma PaddedKey(conv: Conversions)
    ensures ReferenceKey(Text(" A100 "), conv) == "A100"
  {
    assert [' '] + "A100" + [' '] == " A100 ";
    assert IsTrimmed("A100") && AllWhitespace([' ']);
    TrimPadded([' '], "A100", [' ']);
  }

  /** A four-character reference of a letter, two characters and a digit is
      its own key. */
  lemma PlainKey(reference: string, conv: Conversions)
    requires |reference| == 4 && (reference[0] == 'A' || reference[0] == 'B') && '0' <= reference[3] <= '9'
    ensures ReferenceKey(Text(reference), conv) == reference
  {
    assert IsTrimmed(reference);
  }

  /** The three references used in the scenarios below. */
  lemma PlainKeys(conv: Conversions)
    ensures ReferenceKey(Text("A100"), conv) == "A100"
    ensures ReferenceKey(Text("A200"), conv) == "A200"
    ensures ReferenceKey(Text("B300"), conv) == "B300"
    ensures "A200" != "B300"
  {
    PlainKey("A100", conv);
    PlainKey("A200", conv);
    PlainKey("B300", conv);
    assert "A200"[0] != "B300"[0];
  }

  /** "N/A" is not blank, so it goes to the parser. */
  lemma NotANumber(conv: Conversions)
    requires conv.parseNumber("N/A").None?
    ensures NormalizeAmount(Text("N/A"), conv) == 0
  {
  }

  /** The two columns of a ledger are the default reference and amount
      columns, so no other column remains to clash with a reserved name. */
  lemma LedgerUsable(reference: Cell, amount: Cell)
    ensures "Reference" in Ledger(reference, amount).columns && "Amount" in Ledger(reference, amount).columns
    ensures "Reference" != "Amount"
    ensures forall c :: !Remains(Ledger(reference, amount), "Reference", "Amount", c)
  {
    assert "Reference"[0] != "Amount"[0];
  }

  /** Reconciling two one-row ledgers comes down to finishing the outer join
      of their two records. */
  lemma LedgersReconcile(bankRef: Cell, bankAmount: Cell, practiceRef: Cell, practiceAmount: Cell, tolerance: int, conv: Conversions)
    ensures Reconcile(Ledger(bankRef, bankAmount), Ledger(practiceRef, practiceAmount), DefaultColumns, tolerance, conv)
            == Success(FinishAll(OuterJoin([Record(ReferenceKey(bankRef, conv), NormalizeAmount(bankAmount, conv), map[])],
                                           [Record(ReferenceKey(practiceRef, conv), NormalizeAmount(practiceAmount, conv), map[])]),
                                 tolerance))
  {
    var bank, practice := Ledger(bankRef, bankAmount), Ledger(practiceRef, practiceAmount);
    LedgerUsable(bankRef, bankAmount);
    LedgerUsable(practiceRef, practiceAmount);
    assert ColumnsUsable(bank, practice, DefaultColumns);
    ReconcileUsable(bank, practice, DefaultColumns, tolerance, conv);
    LedgerRecord(bankRef, bankAmount, conv);
    LedgerRecord(practiceRef, practiceAmount, conv);
  }

  lemma FinishOne(m: JoinedRow, tolerance: int)
    ensures FinishAll([m], tolerance) == [Finish(m, tolerance)]
  {
    var os := FinishAll([m], tolerance);
    assert |os| == 1 && os[0] == Finish(m, tolerance);
  }

  lemma FinishTwo(m: JoinedRow, n: JoinedRow, tolerance: int)
    ensures FinishAll([m, n], tolerance) == [Finish(m, tolerance), Finish(n, tolerance)]
  {
    var os := FinishAll([m, n], tolerance);
    assert |os| == 2 && os[0] == Finish(m, tolerance) && os[1] == Finish(n, tolerance);
  }

  /** Two records with the same key give a single report row holding both
      amounts, their difference, and a status decided by the tolerance. */
  lemma MatchingRecords(b: Record, p: Record, tolerance: int)
    requires b.reference == p.reference
    ensures FinishAll(OuterJoin([b], [p]), tolerance)
            == [OutRow(b.reference, Some(b.amount), Some(p.amount), Some(b.columns), Some(p.columns), b.amount - p.amount,
                       if Abs(b.amount - p.amount) <= tolerance then Matched else AmountMismatch)]
  {
    JoinSingletons(b, p);
    FinishOne(Pair(b, p), tolerance);
  }

  /** Two records with different keys give two report rows: the bank record
      missing in the practice ledger and the practice record missing in the
      bank ledger. */
  lemma DisjointRecords(b: Record, p: Record, tolerance: int)
    requires b.reference != p.reference
    ensures FinishAll(OuterJoin([b], [p]), tolerance)
            == [OutRow(b.reference, Some(b.amount), None, Some(b.columns), None, b.amount, MissingInPractice),
                OutRow(p.reference, None, Some(p.amount), None, Some(p.columns), -p.amount, MissingInBank)]
  {
    JoinSingletons(b, p);
    FinishTwo(BankAlone(b), PracticeAlone(p), tolerance);
  }

  /** A bank reference padded with spaces joins the unpadded practice
      reference; amounts three cents apart are a mismatch of -3. */
  lemma PaddedReferenceMismatch(conv: Conversions)
    ensures Reconcile(Ledger(Text(" A100 "), Number(25000)), Ledger(Text("A100"), Number(25003)),
                      DefaultColumns, DefaultTolerance, conv)
            == Success([OutRow("A100", Some(25000), Some(25003), Some(map[]), Some(map[]), -3, AmountMismatch)])
  {
    var b, p := Record("A100", 25000, map[]), Record("A100", 25003, map[]);
    calc {
      Reconcile(Ledger(Text(" A100 "), Number(25000)), Ledger(Text("A100"), Number(25003)),
                DefaultColumns, DefaultTolerance, conv);
      { LedgersReconcile(Text(" A100 "), Number(25000), Text("A100"), Number(25003), DefaultTolerance, conv); }
      Success(FinishAll(OuterJoin([Record(ReferenceKey(Text(" A100 "), conv), NormalizeAmount(Number(25000), conv), map[])],
                                  [Record(ReferenceKey(Text("A100"), conv), NormalizeAmount(Number(25003), conv), map[])]),
                        DefaultTolerance));
      { PaddedKey(conv); PlainKeys(conv); }
      Success(FinishAll(OuterJoin([b], [p]), DefaultTolerance));
      { MatchingRecords(b, p, DefaultTolerance); }
      Success([OutRow("A100", Some(25000), Some(25003), Some(map[]), Some(map[]), -3, AmountMismatch)]);
    }
  }

  /** An amount that does not parse counts as zero, so against a zero
      amount for the same reference it is a match with difference 0. */
  lemma UnparseableAmountMatchesZero(conv: Conversions)
    requires conv.parseNumber("N/A").None?
    ensures Reconcile(Ledger(Text("A100"), Text("N/A")), Ledger(Text("A100"), Number(0)),
                      DefaultColumns, DefaultTolerance, conv)
            == Success([OutRow("A100", Some(0), Some(0), Some(map[]), Some(map[]), 0, Matched)])
  {
    var b := Record("A100", 0, map[]);
    calc {
      Reconcile(Ledger(Text("A100"), Text("N/A")), Ledger(Text("A100"), Number(0)),
                DefaultColumns, DefaultTolerance, conv);
      { LedgersReconcile(Text("A100"), Text("N/A"), Text("A100"), Number(0), DefaultTolerance, conv); }
      Success(FinishAll(OuterJoin([Record(ReferenceKey(Text("A100"), conv), NormalizeAmount(Text("N/A"), conv), map[])],
                                  [Record(ReferenceKey(Text("A100"), conv), NormalizeAmount(Number(0), conv), map[])]),
                        DefaultTolerance));
      { PlainKeys(conv); NotANumber(conv); }
      Success(FinishAll(OuterJoin([b], [b]), DefaultTolerance));
      { MatchingRecords(b, b, DefaultTolerance); }
      Success([OutRow("A100", Some(0), Some(0), Some(map[]), Some(map[]), 0, Matched)]);
    }
  }

  /** A bank reference the practice ledger lacks is missing in the practice
      ledger, and the practice reference is missing in the bank ledger. */
  lemma UnmatchedReferences(conv: Conversions)
    ensures Reconcile(Ledger(Text("A200"), Number(10000)), Ledger(Text("B300"), Number(7550)),
                      DefaultColumns, DefaultTolerance, conv)
            == Success([OutRow("A200", Some(10000), None, Some(map[]), None, 10000, MissingInPractice),
                        OutRow("B300", None, Some(7550), None, Some(map[]), -7550, MissingInBank)])
  {
    var b, p := Record("A200", 10000, map[]), Record("B300", 7550, map[]);
    calc {
      Reconcile(Ledger(Text("A200"), Number(10000)), Ledger(Text("B300"), Number(7550)),
                DefaultColumns, DefaultTolerance, conv);
      { LedgersReconcile(Text("A200"), Number(10000), Text("B300"), Number(7550), DefaultTolerance, conv); }
      Success(FinishAll(OuterJoin([Record(ReferenceKey(Text("A200"), conv), NormalizeAmount(Number(10000), conv), map[])],
                                  [Record(ReferenceKey(Text("B300"), conv), NormalizeAmount(Number(7550), conv), map[])]),
                        DefaultTolerance));
      { PlainKeys(conv); }
      Success(FinishAll(OuterJoin([b], [p]), DefaultTolerance));
      { PlainKeys(conv); DisjointRecords(b, p, DefaultTolerance); }
      Success([OutRow("A200", Some(10000), None, Some(map[]), None, 10000, MissingInPractice),
               OutRow("B300", None, Some(7550), None, Some(map[]), -7550, MissingInBank)]);
    }
  }

  /** A bank header naming `Reference` twice stops the reconciliation at the
      first column it selects, with nothing produced. */
  lemma RepeatedReferenceFails(conv: Conversions)
    ensures Reconcile(Table(["Reference", "Amount", "Reference"], []), Table(["Reference", "Amount"], []),
                      DefaultColumns, DefaultTolerance, conv)
            == Failure(DuplicateColumn(Bank, "Reference"))
  {
    assert multiset(["Reference", "Amount", "Reference"])["Reference"] == 2 by {
      assert "Reference" != "Amount" by { assert "Reference"[0] != "Amount"[0]; }
    }
  }
}

=== FILE: tables.dfy ===
/** The tabular inputs of the reconciler: cells, rows and tables. */
module Tables {
  import opened Results

  /** One spreadsheet cell. Amounts are whole numbers of the smallest currency
      unit (cents), standing in for the ledgers' floating-point amounts. A
      number in a reference column is only ever turned into text, by
      `Conversions.showNumber`, so there the integer means whatever that
      rendering makes of it. `Missing` is the library's missing-value marker
      (NaN). */
  datatype Cell = Text(text: string) | Number(value: int) | Missing

  /** A row maps column names to cells. */
  type Row = map<string, Cell>

  /** A table is its header (column names) and its rows. */
  datatype Table = Table(columns: seq<string>, rows: seq<Row>)

  /** A table as a data frame holds it: every row has exactly the header's
      columns. The model does not need this for its results; `Reconciler`
      uses it to carry the header's guarantees over to the rows. */
  predicate WellFormed(t: Table) {
    forall r :: r in t.rows ==> r.Keys == set c | c in t.columns
  }

  /** The cell of `row` in `column`; a row that lacks the column reads as missing. */
  function CellAt(row: Row, column: string): Cell {
    if column in row then row[column] else Missing
  }

  /** The two conversions the reconciler borrows from the table library and
      that this model leaves abstract: the numeric-string grammar of its
      lenient number parser (`None` when the text is not a number), and the
      text it renders for a number cell when a column is cast to strings. */
  datatype Conversions = Conversions(parseNumber: string -> Option<int>, showNumber: int -> string)
}

=== FILE: text.dfy ===
/** Whitespace stripping of reference keys, as Python's `str.strip()` does it. */
module Text {

  /** The characters `str.strip()` removes when called without arguments:
      TAB through CR, the separators FS through US, SPACE, NEXT LINE,
      NO-BREAK SPACE, OGHAM SPACE MARK, EN QUAD through HAIR SPACE, LINE and
      PARAGRAPH SEPARATOR, NARROW NO-BREAK SPACE, MEDIUM MATHEMATICAL SPACE
      and IDEOGRAPHIC SPACE. */
  predicate IsWhitespace(c: char) {
    || ('\t' <= c <= '\r')
    || ('\U{1C}' <= c <= ' ')
    || c == '\U{85}' || c == '\U{A0}' || c == '\U{1680}'
    || ('\U{2000}' <= c <= '\U{200A}')
    || c == '\U{2028}' || c == '\U{2029}' || c == '\U{202F}' || c == '\U{205F}'
    || c == '\U{3000}'
  }

  /** Every character of `s` at a position in [lo, hi) is whitespace. */
  predicate WhitespaceBetween(s: string, lo: int, hi: int) {
    forall k :: lo <= k < hi && 0 <= k < |s| ==> IsWhitespace(s[k])
  }

  predicate AllWhitespace(s: string) {
    WhitespaceBetween(s, 0, |s|)
  }

  /** Neither end of `s` is whitespace. */
  predicate IsTrimmed(s: string) {
    s == [] || (!IsWhitespace(s[0]) && !IsWhitespace(s[|s| - 1]))
  }

  /** `r` is the slice of `s` that starts at `i`, with only whitespace in
      front of it and behind it. */
  predicate SliceWithin(s: string, i: int, r: string) {
    && 0 <= i && i + |r| <= |s| && r == s[i..i + |r|]
    && WhitespaceBetween(s, 0, i) && WhitespaceBetween(s, i + |r|, |s|)
  }

  /** The first position at or after `i` that does not hold whitespace
      (`|s|` when there is none): where the text starts once the leading
      whitespace is skipped. */
  function SkipFrom(s: string, i: nat): (n: nat)
    requires i <= |s|
    ensures i <= n <= |s| && WhitespaceBetween(s, i, n)
    ensures n < |s| ==> !IsWhitespace(s[n])
    decreases |s| - i
  {
    if i < |s| && IsWhitespace(s[i]) then SkipFrom(s, i + 1) else i
  }

  /** The end of the text in `s[lo..j]` once its trailing whitespace is cut:
      the smallest position from which only whitespace runs up to `j`. */
  function BackFrom(s: string, lo: nat, j: nat): (n: nat)
    requires lo <= j <= |s|
    ensures lo <= n <= j && WhitespaceBetween(s, n, j)
    ensures n > lo ==> !IsWhitespace(s[n - 1])
    decreases j
  {
    if j > lo && IsWhitespace(s[j - 1]) then BackFrom(s, lo, j - 1) else j
  }

  /** `str.strip()`: the middle of `s` left once whitespace is removed from
      both ends. */
  function Trim(s: string): (r: string)
    ensures IsTrimmed(r) && |r| <= |s|
  {
    var i := SkipFrom(s, 0);
    s[i..BackFrom(s, i, |s|)]
  }

  /** What `Trim` keeps is the slice of `s` starting at some position `i`,
      with only whitespace in front of it and behind it. */
  lemma TrimSlice(s: string) returns (i: nat)
    ensures SliceWithin(s, i, Trim(s))
  {
    i := SkipFrom(s, 0);
  }

  /** Skipping from `i` stops at `n` when only whitespace lies in between
      and `n` is the end or holds text. */
  lemma {:induction false} SkipFromStops(s: string, i: nat, n: nat)
    requires i <= n <= |s| && WhitespaceBetween(s, i, n)
    requires n < |s| ==> !IsWhitespace(s[n])
    ensures SkipFrom(s, i) == n
    decreases n - i
  {
    if i < n {
      SkipFromStops(s, i + 1, n);
    }
  }

  /** Cutting back from `j` stops at `n` when only whitespace lies in
      between and `n` is `lo` or follows text. */
  lemma {:induction false} BackFromStops(s: string, lo: nat, j: nat, n: nat)
    requires lo <= n <= j <= |s| && WhitespaceBetween(s, n, j)
    requires n > lo ==> !IsWhitespace(s[n - 1])
    ensures BackFrom(s, lo, j) == n
    decreases j
  {
    if n < j {
      BackFromStops(s, lo, j - 1, n);
    }
  }

  /** Whatever whitespace surrounds a trimmed string, stripping recovers
      exactly that string: the slice `TrimSlice` finds is unique. */
  lemma TrimPadded(a: string, t: string, z: string)
    requires AllWhitespace(a) && IsTrimmed(t) && AllWhitespace(z)
    ensures Trim(a + t + z) == t
  {
    var s := a + t + z;
    if t == [] {
      SkipFromStops(s, 0, |s|);
      BackFromStops(s, |s|, |s|, |s|);
    } else {
      SkipFromStops(s, 0, |a|);
      BackFromStops(s, |a|, |s|, |a| + |t|);
      assert s[|a|..|a| + |t|] == t;
    }
  }

  lemma AllWhitespaceAppend(x: string, y: string)
    requires AllWhitespace(x) && AllWhitespace(y)
    ensures AllWhitespace(x + y)
  {
  }

  /** The trimmed strings are exactly the fixed points of `Trim`, so trimming
      twice gives the same key as trimming once. */
  lemma TrimIdempotent(s: string)
    ensures IsTrimmed(s) <==> Trim(s) == s
    ensures Trim(Trim(s)) == Trim(s)
  {
    if IsTrimmed(s) {
      TrimPadded([], s, []);
      assert [] + s + [] == s;
    }
    TrimPadded([], Trim(s), []);
    assert [] + Trim(s) + [] == Trim(s);
  }

  /** Surrounding whitespace never changes the trimmed key: `" A100 "` and
      `"A100"` strip to the same string. */
  lemma TrimIgnoresPadding(a: string, s: string, z: string)
    requires AllWhitespace(a) && AllWhitespace(z)
    ensures Trim(a + s + z) == Trim(s)
  {
    var r := Trim(s);
    var i := TrimSlice(s);
    var p, q := s[..i], s[i + |r|..];
    assert AllWhitespace(p) && AllWhitespace(q);
    AllWhitespaceAppend(a, p);
    AllWhitespaceAppend(q, z);
    SplitAround(s, i, i + |r|);
    Regroup(a, p, r, q, z);
    TrimPadded(a + p, r, q + z);
  }

  lemma SplitAround(s: string, i: nat, j: nat)
    requires i <= j <= |s|
    ensures s == s[..i] + s[i..j] + s[j..]
  {
  }

  lemma Regroup(a: string, p: string, r: string, q: string, z: string)
    ensures a + (p + r + q) + z == (a + p) + r + (q + z)
  {
  }
}
